=== FILE: README.md ===
# Constant-acceleration lab: a Dafny model

This project models the logic of the physics teaching page
`src/pages/NaturalSciences/Acceleration.tsx`:

- **Kinematics** (`kinematics.dfy`): the closed forms `pos = v0·t + ½·a·t²` and
  `vel = v0 + a·t` that every displayed value is computed from, and the
  time-free formula `v² = v0² + 2·a·Δs` of the theory cards.
- **Engine** (`engine.dfy`): the simulation panel as an immutable state
  `(v0, a, t, running, prev)`. The animation callback, the effect that runs
  when the run flag changes, the start/pause button, the reset button and the
  two sliders are pure transition functions. A browser animation frame
  becomes an explicit `Frame(now)` event with a millisecond timestamp.
- **Render** (`render.dfy`): the view values derived from the displayed
  displacement and velocity. These are the car offset, the wheel spin period
  and direction, the dashboard bar and the velocity arrow.
- **Quiz** (`quiz.dfy`): the practice cards. This covers the three-way answer
  check, the reset to idle on typing, the disabled check button, the
  solution toggle, and the three stored reference answers.
- `options.dfy` holds the `Option` type. The model uses it for the possibly
  `undefined` baseline timestamp and for a parse that yields `NaN`.

JavaScript numbers are modelled as exact `real`s.

A delivered frame is modelled in two steps:
1. `Engine.Animate` is the callback body. It always records `now` as the
   baseline.
2. `Engine.Settle` is the effect keyed on the run flag. When the run flag is
   false, it forgets the baseline.

So after a frame that halts the run, the baseline is gone. The next start
therefore begins with a baseline-only frame.

Frames are scheduled only while running, and the pending one is cancelled on
stop. For that reason a `Frame` event reaching a stopped panel changes
nothing.

Some behaviour of the code is worth stating explicitly, because a natural
reading of the widget suggests otherwise:
- The frame interval is not clamped to be non-negative (line 329). Every
  monotonicity result therefore assumes frame timestamps that do not run
  behind the baseline (`Engine.Fresh`, `Engine.Ordered`, `Engine.ClockFrom`).
  `Engine.BackwardClockRewinds` shows what happens otherwise.
- A car that is not moving gets wheel period `0`, not an infinite period
  (line 313).
- Start/pause is a single toggle (line 413). It is not a start that does
  nothing when already running.
- A halting frame does not leave its timestamp behind as the baseline. The
  stop effect clears it (lines 349-353).
- The halt test looks only at the displacement at the end of each frame
  (lines 333-335), not along the path in between. One long frame can carry
  the car through the out-of-bounds zone and back without stopping the run;
  `Engine.LongFrameSkipsHalt` gives such a frame.
- The simulation code (lines 303-346) has no check for non-finite values,
  so the engine models none. The quiz's `isNaN` test (line 653) is the
  `Unparseable` verdict of `Quiz.Judge`.

## Model

| member | source | states |
|---|---|---|
| Kinematics.AtStart | src/pages/NaturalSciences/Acceleration.tsx:303-304 | at t = 0 the displacement is 0 and the velocity is v0 |
| Kinematics.Timeless | src/pages/NaturalSciences/Acceleration.tsx:242 | the closed forms satisfy v² = v0² + 2·a·Δs at every instant |
| Kinematics.MeanVelocity | src/pages/NaturalSciences/Acceleration.tsx:229-231 | the displacement between two instants is the elapsed time times the mean of the two velocities, i.e. the area under the v-t graph |
| Engine.Observe | src/pages/NaturalSciences/Acceleration.tsx:303-304 | the dashboard snapshot carries the committed time and run flag; its velocity is v0 + a·t, its displacement is t times the mean of v0 and that velocity, and the two obey the time-free formula |
| Engine.Elapsed | src/pages/NaturalSciences/Acceleration.tsx:329 | the frame step in seconds is the millisecond difference divided by 1000, with no clamping |
| Engine.Animate | src/pages/NaturalSciences/Acceleration.tsx:327-346 | the baseline becomes now; the first frame changes nothing else; time changes only by the exact elapsed step and only to an in-bounds displacement; the run only ever stops, and then with the old time |
| Engine.Settle | src/pages/NaturalSciences/Acceleration.tsx:348-356 | a stopped panel holds no baseline; a running one is untouched; only the baseline ever changes |
| Engine.Tick | src/pages/NaturalSciences/Acceleration.tsx:327-356 | parameters are kept; an in-bounds displacement stays in bounds; time either stays or advances by the elapsed step while running; a stopped panel is untouched; a run stopped by the frame has no baseline |
| Engine.Toggle | src/pages/NaturalSciences/Acceleration.tsx:413 | flips the run flag and keeps parameters and time; a pause drops the baseline |
| Engine.Reset | src/pages/NaturalSciences/Acceleration.tsx:358-362 | stopped with no baseline, displacement 0 and velocity v0, parameters kept |
| Engine.SetV0 | src/pages/NaturalSciences/Acceleration.tsx:384 | stores the new initial velocity and leaves the panel stopped at t = 0 with no baseline |
| Engine.SetA | src/pages/NaturalSciences/Acceleration.tsx:401 | stores the new acceleration and leaves the panel stopped at t = 0 with no baseline |
| Engine.InitInv | src/pages/NaturalSciences/Acceleration.tsx:295-301 | the initial panel satisfies the reachable-state invariant |
| Engine.StepInv | src/pages/NaturalSciences/Acceleration.tsx:335-339 | every event keeps the displacement within 105 m and a stopped panel without baseline |
| Engine.RunInv | src/pages/NaturalSciences/Acceleration.tsx:335-339 | any event sequence preserves that invariant |
| Engine.ReachableBounded | src/pages/NaturalSciences/Acceleration.tsx:306-339 | from the initial panel, every reachable state has displacement of magnitude at most trackRange + 5 = 105 and no baseline while stopped |
| Engine.HaltKeepsTime | src/pages/NaturalSciences/Acceleration.tsx:335-337 | a frame whose candidate displacement leaves the margin stops the run, keeps the last accepted time and clears the baseline |
| Engine.AdvanceCommits | src/pages/NaturalSciences/Acceleration.tsx:332-339 | a frame whose candidate stays within the margin advances time by exactly the wall-clock interval, keeps running and records now |
| Engine.FirstFrameBaseline | src/pages/NaturalSciences/Acceleration.tsx:328-342 | the first frame of a run only records its timestamp as the baseline |
| Engine.PauseResume | src/pages/NaturalSciences/Acceleration.tsx:349-353 | pausing keeps time and drops the baseline; after resuming, the first frame adds nothing however long the pause was |
| Engine.ResetIdempotent | src/pages/NaturalSciences/Acceleration.tsx:358-362 | resetting twice equals resetting once, at t = 0 |
| Engine.SliderResets | src/pages/NaturalSciences/Acceleration.tsx:384-401 | each slider move is a reset under the new parameter, giving displacement 0 and velocity v0 |
| Engine.TickMonotone | src/pages/NaturalSciences/Acceleration.tsx:329-332 | a frame not behind its baseline never decreases time |
| Engine.BackwardClockRewinds | src/pages/NaturalSciences/Acceleration.tsx:329 | a timestamp behind the baseline moves time backwards, because the interval is not clamped |
| Engine.LongFrameSkipsHalt | src/pages/NaturalSciences/Acceleration.tsx:333-335 | the halt test samples only the end of a frame: at v0 = 30, a = -4, one 4 s frame from 5.5 s commits 9.5 s and keeps running, although the car passed 112.5 m at 7.5 s, beyond the 105 m limit |
| Engine.ClockOrdered | src/pages/NaturalSciences/Acceleration.tsx:342 | with non-decreasing frame timestamps every frame is fresh against its baseline |
| Engine.RunMonotone | src/pages/NaturalSciences/Acceleration.tsx:331-339 | with fresh frames and no reset or slider event, time never decreases |
| Engine.RunNonNegative | src/pages/NaturalSciences/Acceleration.tsx:331-339 | with fresh frames, a non-negative time stays non-negative across resets and frames |
| Engine.ReachableNonNegative | src/pages/NaturalSciences/Acceleration.tsx:297 | from the initial panel with a non-decreasing clock, time is never negative |
| Engine.BoundaryScenario | src/pages/NaturalSciences/Acceleration.tsx:335-337 | at v0 = 50, a = 0, a frame that would reach 110 m stops the car at its last position of 100 m |
| Engine.ThreeSecondScenario | src/pages/NaturalSciences/Acceleration.tsx:327-342 | start at v0 = 0, a = 2, then a baseline frame and a frame 3 s later give 9 m at 6 m/s, still running |
| Render.ViewPos | src/pages/NaturalSciences/Acceleration.tsx:308 | the drawn displacement lies in [-110, 110] and equals the displacement inside that range |
| Render.CarOffset | src/pages/NaturalSciences/Acceleration.tsx:308-309 | the car offset lies in [-5, 105] % and, inside the view range, maps back to the displacement |
| Render.WheelPeriod | src/pages/NaturalSciences/Acceleration.tsx:311-313 | 0 when not moving; otherwise in [0.1, 20) s, with period·speed = 2 up to 20 m/s and the 0.1 s floor above 20 m/s |
| Render.SpinOf | src/pages/NaturalSciences/Acceleration.tsx:315 | clockwise exactly when the velocity is non-negative |
| Render.BarWidth | src/pages/NaturalSciences/Acceleration.tsx:449 | the bar width lies in [0, 50] %, is 1.5 % per m/s below saturation and 50 above |
| Render.ArrowOf | src/pages/NaturalSciences/Acceleration.tsx:522-527 | an arrow exists exactly above 0.5 m/s; its length is 5 px per m/s up to the 100 px cap, and it points left exactly for negative velocity |
| Render.Draw | src/pages/NaturalSciences/Acceleration.tsx:447-530 | the car offset maps back to the displacement inside the view range and saturates at 105 % above it and at -5 % below it; the car is mirrored exactly for negative velocity, moving exactly above 0.1 m/s, and has an arrow exactly above 0.5 m/s; the wheel period is exactly 2 s divided by the speed up to 20 m/s and the 0.1 s floor above it; arrow length times wheel period is always 10; the bar width ignores the sign; the indicators agree: mirrored car, counter-clockwise wheels and a left-growing bar go together, and the arrow points the way the car faces |
| Render.CarOffsetMonotone | src/pages/NaturalSciences/Acceleration.tsx:309 | a larger displacement is drawn no further left |
| Render.WheelPeriodMonotone | src/pages/NaturalSciences/Acceleration.tsx:313 | a faster moving car has a wheel period no longer |
| Render.MirrorSymmetry | src/pages/NaturalSciences/Acceleration.tsx:311-315 | negating the velocity keeps offset, period, bar width and arrow presence and flips the spin |
| Render.ReachableCarOnRoad | src/pages/NaturalSciences/Acceleration.tsx:306-309 | on reachable states the clamp never engages: the offset is 50 + pos/2, within [-2.5, 102.5] % |
| Render.ResetSceneCentred | src/pages/NaturalSciences/Acceleration.tsx:358-362 | after a reset the car is at 50 % and moving exactly when the initial speed exceeds 0.1 |
| Quiz.Judge | src/pages/NaturalSciences/Acceleration.tsx:652-656 | unparseable exactly for a NaN parse; accepted exactly for a value strictly within 0.1 of the answer |
| Quiz.CheckAnswer | src/pages/NaturalSciences/Acceleration.tsx:651-662 | an unparseable entry changes nothing; correct exactly for an accepted entry, which also opens the solution; wrong for any other number; the entry is kept and an open solution stays open |
| Quiz.Edit | src/pages/NaturalSciences/Acceleration.tsx:682 | typing stores the new entry and sets the status back to idle, leaving the solution as it was |
| Quiz.Press | src/pages/NaturalSciences/Acceleration.tsx:691-693 | a card showing correct ignores the check button; otherwise the button checks |
| Quiz.ToggleSolution | src/pages/NaturalSciences/Acceleration.tsx:707 | flips only the solution visibility |
| Quiz.ActConsistent | src/pages/NaturalSciences/Acceleration.tsx:651-682 | every card action keeps the shown status consistent with the current entry |
| Quiz.PlayConsistent | src/pages/NaturalSciences/Acceleration.tsx:651-682 | any sequence of card actions keeps that consistency |
| Quiz.ReachableConsistent | src/pages/NaturalSciences/Acceleration.tsx:646-682 | from a fresh card, correct is shown only for an entry within 0.1 of the answer, wrong only for one outside |
| Quiz.DisabledButtonEffect | src/pages/NaturalSciences/Acceleration.tsx:693 | on a card showing correct, a re-check would only reopen a closed solution, and the disabled button leaves the card as it is |
| Quiz.CheckIdempotent | src/pages/NaturalSciences/Acceleration.tsx:651-662 | checking twice equals checking once |
| Quiz.ToleranceSamples | src/pages/NaturalSciences/Acceleration.tsx:656 | against 9, the entry 9.05 is accepted, 9.2 and 8.8 are rejected, and NaN is unparseable |
| Quiz.DistanceAnswer | src/pages/NaturalSciences/Acceleration.tsx:573-578 | the stored 9 equals ½·2·3², the displacement at t = 3 from rest at a = 2 |
| Quiz.BrakingAnswer | src/pages/NaturalSciences/Acceleration.tsx:594-601 | the stored -8 is the unique solution of 0 = 20² + 2·a·25; at that deceleration the car stops after exactly 25 m |
| Quiz.AccelerationAnswer | src/pages/NaturalSciences/Acceleration.tsx:616-622 | the stored 2.5 equals (18 − 8)/4 and takes 8 m/s to 18 m/s in 4 s |

## Left out

- Animation scheduling (`requestAnimationFrame`, `cancelAnimationFrame`, the refs and `useEffect` plumbing, lines 317-356) is replaced by explicit `Frame(now)` events. Stale closures that capture old parameters, React state batching, and a leaked frame firing after a stop are not modelled.
- Dynamic keyframe injection into the document head (lines 318-324) is presentation only.
- `parseFloat`, `Number` and `toFixed` are JavaScript library behaviour. Parsed input enters the model as `Option<real>`, and no output is formatted.
- IEEE-754 rounding, drift, NaN and infinities are not modelled; exact reals idealise JavaScript doubles.
- Quiz.Judge: an entry exactly 0.1 from the answer is rejected over exact reals. In the program, rounding in doubles decides such entries. For example, 8.9 and 9.1 against 9, and -7.9 and -8.1 against -8, come out just under 0.1 and are accepted. In contrast, 2.4 and 2.6 against 2.5 come out just over 0.1 and are rejected.
- The slider ranges (v0 in [-30, 30] in steps of 1, a in [-10, 10] in steps of 0.5, lines 383 and 400) are not imposed. Every result here holds for all real parameters.
- The `TextMath` mini-markup renderer (lines 68-104) is left out. It relies on regular-expression split/replace semantics and only produces markup.
- The SVG concept diagrams, `FormulaCard`, `TheorySection`, `NavButton` and the `M` helper (lines 47-291) are static markup.
- The tab switching of the page (lines 5-45) is left out. Switching tabs unmounts the panel; the model covers one mounted panel and one card at a time.
- `src/pages/Home.tsx`, `src/pages/NaturalSciences/ScienceMenu.tsx` and `src/App.tsx` are static menus and routing. Their only logic is "navigate unless the link is `#`".

=== FILE: engine.dfy ===
/** The simulation panel's state machine: the elapsed time `t`, the run flag
    and the animation baseline timestamp, driven by explicit frame, toggle,
    reset and slider events instead of the browser's animation scheduler. */
module Engine {
  import opened Options
  import opened Kinematics

  /** Half-length of the drawn track, in metres. */
  const TrackRange: real := 100.0

  /** Extra distance past the track end before a run is halted. */
  const Margin: real := 5.0

  /** A run halts once the displacement would exceed this magnitude. */
  const Limit: real := TrackRange + Margin

  /** The panel's state. `prev` is the timestamp (in milliseconds) of the
      previous animation frame, `None` when no baseline has been taken. */
  datatype Sim = Sim(v0: real, a: real, t: real, running: bool, prev: Option<real>)
  {
    /** Displayed displacement, always recomputed from the parameters and `t`. */
    function Position(): (p: real) {
      Pos(v0, a, t)
    }

    /** Displayed velocity, always recomputed from the parameters and `t`. */
    function Velocity(): (v: real) {
      Vel(v0, a, t)
    }
  }

  /** A displacement the run may commit: the halt test fires on `> Limit`. */
  predicate InBounds(x: real) {
    Abs(x) <= Limit
  }

  /** The panel as first shown: v0 = 0, a = 2, stopped at t = 0, no baseline. */
  const Init: Sim := Sim(0.0, 2.0, 0.0, false, None)

  /** The read-only values the dashboard shows. */
  datatype Snapshot = Snapshot(time: real, position: real, velocity: real, running: bool)

  function Observe(s: Sim): (r: Snapshot)
    ensures r.time == s.t && r.running == s.running
    ensures r.velocity == s.v0 + s.a * r.time
    ensures r.position == r.time * (s.v0 + r.velocity) / 2.0
    ensures r.velocity * r.velocity == s.v0 * s.v0 + 2.0 * s.a * r.position
  {
    Timeless(s.v0, s.a, s.t);
    Snapshot(s.t, s.Position(), s.Velocity(), s.running)
  }

  /** Elapsed seconds between two frame timestamps given in milliseconds.
      The difference is not clamped, so a timestamp earlier than the
      baseline yields a negative step. */
  function Elapsed(prev: real, now: real): (dt: real)
    ensures dt * 1000.0 == now - prev
  {
    (now - prev) / 1000.0
  }

  /** A frame timestamp that does not run behind the recorded baseline. */
  predicate Fresh(s: Sim, now: real) {
    s.prev.Some? ==> s.prev.value <= now
  }

  /** The body of the animation callback: the first frame only records the
      baseline; a later frame proposes `t + Δ` and either commits it or, when
      the proposed displacement leaves the track margin, stops the run and
      keeps the old time. The baseline becomes `now` in every case. */
  function Animate(s: Sim, now: real): (r: Sim)
    ensures r.v0 == s.v0 && r.a == s.a
    ensures r.prev == Some(now)
    ensures s.prev.None? ==> r.t == s.t && r.running == s.running
    ensures r.t != s.t ==> s.prev.Some? && r.t == s.t + Elapsed(s.prev.value, now)
    ensures r.t != s.t ==> InBounds(r.Position())
    ensures r.running != s.running ==> !r.running && r.t == s.t
  {
    match s.prev
    case None => s.(prev := Some(now))
    case Some(p) =>
      var next := s.t + Elapsed(p, now);
      if !InBounds(Pos(s.v0, s.a, next)) then
        s.(running := false, prev := Some(now))
      else
        s.(t := next, prev := Some(now))
  }

  /** The effect that runs whenever the run flag changes: a stopped panel
      cancels its pending frame and forgets the baseline, so the next start
      measures from a fresh first frame. */
  function Settle(s: Sim): (r: Sim)
    ensures !r.running ==> r.prev.None?
    ensures r.running ==> r == s
    ensures r.(prev := s.prev) == s
  {
    if s.running then s else s.(prev := None)
  }

  /** One animation frame delivered at `now`. Frames are scheduled only while
      running and the pending one is cancelled on stop, so a stopped panel
      receives none. */
  function Tick(s: Sim, now: real): (r: Sim)
    ensures r.v0 == s.v0 && r.a == s.a
    ensures InBounds(s.Position()) ==> InBounds(r.Position())
    ensures r.t == s.t || (r.running && s.prev.Some? && r.t == s.t + Elapsed(s.prev.value, now))
    ensures !s.running ==> r == s
    ensures s.running && !r.running ==> r.prev.None?
    ensures r.running ==> r.prev == Some(now)
  {
    if !s.running then s else Settle(Animate(s, now))
  }

  /** The start/pause button: flips the run flag; stopping drops the baseline. */
  function Toggle(s: Sim): (r: Sim)
    ensures r.running != s.running
    ensures r.v0 == s.v0 && r.a == s.a && r.t == s.t
    ensures !r.running ==> r.prev.None?
  {
    Settle(s.(running := !s.running))
  }

  /** The reset button: stopped at t = 0 with no baseline. */
  function Reset(s: Sim): (r: Sim)
    ensures r.v0 == s.v0 && r.a == s.a
    ensures !r.running && r.prev.None?
    ensures r.Position() == 0.0 && r.Velocity() == s.v0
  {
    s.(running := false, t := 0.0, prev := None)
  }

  /** The initial-velocity slider: stores the value and resets the run. */
  function SetV0(s: Sim, v: real): (r: Sim)
    ensures r.v0 == v && r.a == s.a
    ensures !r.running && r.prev.None? && r.t == 0.0
  {
    Reset(s.(v0 := v))
  }

  /** The acceleration slider: stores the value and resets the run. */
  function SetA(s: Sim, acc: real): (r: Sim)
    ensures r.a == acc && r.v0 == s.v0
    ensures !r.running && r.prev.None? && r.t == 0.0
  {
    Reset(s.(a := acc))
  }

  /** Everything that can happen to the panel. */
  datatype Event =
    | Frame(now: real)
    | PressToggle
    | PressReset
    | SlideV0(v: real)
    | SlideA(acc: real)

  function Step(s: Sim, e: Event): (r: Sim) {
    match e
    case Frame(now) => Tick(s, now)
    case PressToggle => Toggle(s)
    case PressReset => Reset(s)
    case SlideV0(v) => SetV0(s, v)
    case SlideA(acc) => SetA(s, acc)
  }

  /** The state after a sequence of events. */
  function Run(s: Sim, evs: seq<Event>): (r: Sim)
    decreases |evs|
  {
    if evs == [] then s else Run(Step(s, evs[0]), evs[1..])
  }

  /** What every reachable state satisfies: the committed displacement is
      within the track margin, and a stopped panel holds no baseline. */
  predicate Inv(s: Sim) {
    && InBounds(s.Position())
    && (!s.running ==> s.prev.None?)
  }

  lemma InitInv()
    ensures Inv(Init)
  {
  }

  lemma StepInv(s: Sim, e: Event)
    requires Inv(s)
    ensures Inv(Step(s, e))
  {
    match e
    case Frame(now) =>
    case PressToggle =>
    case PressReset =>
    case SlideV0(v) =>
    case SlideA(acc) =>
  }

  lemma {:induction false} RunInv(s: Sim, evs: seq<Event>)
    requires Inv(s)
    ensures Inv(Run(s, evs))
    decreases |evs|
  {
    if evs != [] {
      StepInv(s, evs[0]);
      RunInv(Step(s, evs[0]), evs[1..]);
    }
  }

  /** The headline bound: whatever the user does and whatever frames arrive,
      the displayed displacement never exceeds the track margin. */
  lemma ReachableBounded(evs: seq<Event>)
    ensures Abs(Run(Init, evs).Position()) <= 105.0
    ensures !Run(Init, evs).running ==> Run(Init, evs).prev.None?
  {
    InitInv();
    RunInv(Init, evs);
  }

  /** A halting frame keeps the last accepted time and never commits the
      overshooting one. */
  lemma HaltKeepsTime(s: Sim, now: real)
    requires s.running && s.prev.Some?
    requires !InBounds(Pos(s.v0, s.a, s.t + Elapsed(s.prev.value, now)))
    ensures !Tick(s, now).running
    ensures Tick(s, now).t == s.t
    ensures Tick(s, now).prev.None?
  {
  }

  /** A frame whose proposed displacement stays within the margin advances
      the time by exactly the wall-clock interval and keeps running. */
  lemma AdvanceCommits(s: Sim, now: real)
    requires s.running && s.prev.Some?
    requires InBounds(Pos(s.v0, s.a, s.t + Elapsed(s.prev.value, now)))
    ensures Tick(s, now).running
    ensures (Tick(s, now).t - s.t) * 1000.0 == now - s.prev.value
    ensures Tick(s, now).prev == Some(now)
  {
  }

  /** The first frame of a run only records the baseline. */
  lemma FirstFrameBaseline(s: Sim, now: real)
    requires s.running && s.prev.None?
    ensures Tick(s, now) == s.(prev := Some(now))
  {
  }

  /** Pausing keeps the time and drops the baseline; resuming and then taking
      a frame at any later wall-clock moment adds nothing, however long the
      pause lasted. */
  lemma PauseResume(s: Sim, now: real)
    requires s.running
    ensures !Toggle(s).running && Toggle(s).t == s.t && Toggle(s).prev.None?
    ensures Toggle(Toggle(s)).running
    ensures Tick(Toggle(Toggle(s)), now).t == s.t
    ensures Tick(Toggle(Toggle(s)), now).prev == Some(now)
  {
  }

  /** Resetting twice is resetting once; a slider move is a reset under the
      new parameter. */
  lemma ResetIdempotent(s: Sim)
    ensures Reset(Reset(s)) == Reset(s)
    ensures Reset(s).t == 0.0
  {
  }

  lemma SliderResets(s: Sim, v: real, acc: real)
    ensures SetV0(s, v) == Reset(s.(v0 := v))
    ensures SetA(s, acc) == Reset(s.(a := acc))
    ensures SetV0(s, v).Position() == 0.0 && SetV0(s, v).Velocity() == v
    ensures SetA(s, acc).Position() == 0.0 && SetA(s, acc).Velocity() == s.v0
  {
    AtStart(v, s.a);
    AtStart(s.v0, acc);
  }

  /** A frame that is not behind the baseline never moves time backwards. */
  lemma TickMonotone(s: Sim, now: real)
    requires Fresh(s, now)
    ensures Tick(s, now).t >= s.t
  {
  }

  /** The source does not clamp the frame interval: a timestamp behind the
      baseline moves time backwards. */
  lemma BackwardClockRewinds()
    ensures var s := Sim(0.0, 2.0, 1.0, true, Some(2000.0));
            Tick(s, 1500.0).t == 0.5 && Tick(s, 1500.0).running
  {
  }

  /** The halt test looks only at the end time of each frame, not at the
      path in between: one long frame (a hidden tab, say) can carry the car
      across the out-of-bounds zone and back without stopping the run. At
      v0 = 30, a = -4 the car is at 104.5 m at both 5.5 s and 9.5 s, but at
      7.5 s it was at 112.5 m. */
  lemma LongFrameSkipsHalt()
    ensures var s := Sim(30.0, -4.0, 5.5, true, Some(0.0));
            && Tick(s, 4000.0).t == 9.5
            && Tick(s, 4000.0).running
            && !InBounds(Pos(s.v0, s.a, 7.5))
  {
  }

  /** The frames of an event sequence each arrive no earlier than the
      baseline they are measured against. */
  predicate Ordered(s: Sim, evs: seq<Event>)
    decreases |evs|
  {
    evs != [] ==>
      && (evs[0].Frame? ==> Fresh(s, evs[0].now))
      && Ordered(Step(s, evs[0]), evs[1..])
  }

  /** Frame timestamps in `evs` are non-decreasing and none is below `lo`. */
  predicate ClockFrom(evs: seq<Event>, lo: real)
    decreases |evs|
  {
    evs != [] ==>
      if evs[0].Frame? then lo <= evs[0].now && ClockFrom(evs[1..], evs[0].now)
      else ClockFrom(evs[1..], lo)
  }

  /** A non-decreasing animation clock makes every frame fresh: the baseline
      is always either absent or the timestamp of an earlier frame. */
  lemma {:induction false} ClockOrdered(s: Sim, evs: seq<Event>, lo: real)
    requires s.prev.Some? ==> s.prev.value <= lo
    requires ClockFrom(evs, lo)
    ensures Ordered(s, evs)
    decreases |evs|
  {
    if evs != [] {
      var s' := Step(s, evs[0]);
      if evs[0].Frame? {
        ClockOrdered(s', evs[1..], evs[0].now);
      } else {
        ClockOrdered(s', evs[1..], lo);
      }
    }
  }

  /** No event in `evs` sets the time back to zero. */
  predicate NoReset(evs: seq<Event>) {
    forall i :: 0 <= i < |evs| ==> evs[i].Frame? || evs[i].PressToggle?
  }

  /** Between resets, and with frames that are not behind their baseline,
      the elapsed time never decreases. */
  lemma {:induction false} RunMonotone(s: Sim, evs: seq<Event>)
    requires Ordered(s, evs)
    requires NoReset(evs)
    ensures Run(s, evs).t >= s.t
    decreases |evs|
  {
    if evs != [] {
      var s' := Step(s, evs[0]);
      assert evs[0].Frame? || evs[0].PressToggle? by {
        assert evs[0] == evs[0 .. 1][0];
      }
      if evs[0].Frame? {
        TickMonotone(s, evs[0].now);
      }
      assert NoReset(evs[1..]) by {
        forall i | 0 <= i < |evs[1..]|
          ensures evs[1..][i].Frame? || evs[1..][i].PressToggle?
        {
          assert evs[1..][i] == evs[i + 1];
        }
      }
      RunMonotone(s', evs[1..]);
    }
  }

  /** With an ordered clock the elapsed time is never negative. */
  lemma {:induction false} RunNonNegative(s: Sim, evs: seq<Event>)
    requires s.t >= 0.0
    requires Ordered(s, evs)
    ensures Run(s, evs).t >= 0.0
    decreases |evs|
  {
    if evs != [] {
      var s' := Step(s, evs[0]);
      if evs[0].Frame? {
        TickMonotone(s, evs[0].now);
      }
      RunNonNegative(s', evs[1..]);
    }
  }

  /** From the initial panel, a non-decreasing animation clock keeps the
      elapsed time non-negative. */
  lemma ReachableNonNegative(evs: seq<Event>, lo: real)
    requires ClockFrom(evs, lo)
    ensures Run(Init, evs).t >= 0.0
  {
    ClockOrdered(Init, evs, lo);
    RunNonNegative(Init, evs);
  }

  /** The boundary scenario: v0 = 50, a = 0 at t = 2 s sits at 100 m; a frame
      200 ms later would put it at 110 m, so the run stops at 100 m. */
  lemma BoundaryScenario()
    ensures var s := Sim(50.0, 0.0, 2.0, true, Some(1000.0));
            var r := Tick(s, 1200.0);
            !r.running && r.t == 2.0 && r.Position() == 100.0
  {
  }

  /** Starting at v0 = 0, a = 2, three seconds of frames end at 9 m moving
      at 6 m/s. */
  lemma ThreeSecondScenario()
    ensures var r := Run(Init, [PressToggle, Frame(500.0), Frame(3500.0)]);
            r.running && r.t == 3.0 && r.Position() == 9.0 && r.Velocity() == 6.0
  {
    var s1 := Toggle(Init);
    assert s1 == Sim(0.0, 2.0, 0.0, true, None);
    var s2 := Tick(s1, 500.0);
    assert s2 == Sim(0.0, 2.0, 0.0, true, Some(500.0));
    var s3 := Tick(s2, 3500.0);
    assert s3 == Sim(0.0, 2.0, 3.0, true, Some(3500.0));
    calc {
      Run(Init, [PressToggle, Frame(500.0), Frame(3500.0)]);
      Run(s1, [Frame(500.0), Frame(3500.0)]);
      Run(s2, [Frame(3500.0)]);
      Run(s3, []);
    }
  }
}

=== FILE: kinematics.dfy ===
/** Closed-form one-dimensional motion under constant acceleration, over exact
    reals. Every displayed displacement and velocity of the simulator is one of
    these two expressions evaluated at the committed elapsed time. */
module Kinematics {

  /** `Math.abs` over reals. */
  function Abs(x: real): (r: real)
    ensures r >= 0.0
    ensures r == x || r == -x
  {
    if x < 0.0 then -x else x
  }

  /** Displacement after `t` seconds: v0·t + ½·a·t². */
  function Pos(v0: real, a: real, t: real): (p: real) {
    v0 * t + 0.5 * a * t * t
  }

  /** Instantaneous velocity after `t` seconds: v0 + a·t. */
  function Vel(v0: real, a: real, t: real): (v: real) {
    v0 + a * t
  }

  /** At time zero the car is at the origin moving at the initial velocity. */
  lemma AtStart(v0: real, a: real)
    ensures Pos(v0, a, 0.0) == 0.0
    ensures Vel(v0, a, 0.0) == v0
  {
  }

  /** The time-free formula of the theory card: v² = v0² + 2·a·Δs holds at
      every instant of the closed-form motion. */
  lemma Timeless(v0: real, a: real, t: real)
    ensures Vel(v0, a, t) * Vel(v0, a, t) == v0 * v0 + 2.0 * a * Pos(v0, a, t)
  {
  }

  /** Mean-velocity rule: the displacement between two instants is the
      elapsed time times the average of the two velocities. This ties the
      two closed forms together: Vel is the slope of Pos. */
  lemma MeanVelocity(v0: real, a: real, t1: real, t2: real)
    ensures Pos(v0, a, t2) - Pos(v0, a, t1)
         == (t2 - t1) * (Vel(v0, a, t1) + Vel(v0, a, t2)) / 2.0
  {
  }
}

=== FILE: options.dfy ===
/** An optional value: the model's stand-in for a JavaScript value that may be
    `undefined` (a missing timestamp) or `NaN` (an unparseable number). */
module Options {

  datatype Option<+T> = None | Some(value: T)
}

=== FILE: quiz.dfy ===
/** The practice-problem cards: three stored problems with reference answers,
    and per card a typed answer, a status and a solution toggle. The text of
    an answer enters the model already parsed: `None` stands for a `NaN`
    parse, `Some(x)` for a number. */
module Quiz {
  import opened Options
  import opened Kinematics

  /** Answers within this absolute distance of the reference are accepted. */
  const Tolerance: real := 0.1

  datatype Status = Idle | Correct | Wrong

  /** The three-way outcome of checking one parsed answer. */
  datatype Verdict = Unparseable | Accepted | Rejected

  /** A card: the parsed typed answer, the status it shows, and whether the
      worked solution is open. */
  datatype Card = Card(entry: Option<real>, status: Status, showSolution: bool)

  /** A card as first shown: empty input (which parses to `NaN`), idle,
      solution closed. */
  const NewCard: Card := Card(None, Idle, false)

  datatype Problem = Problem(id: nat, answer: real)

  /** The stored problems and their reference answers. */
  const Problems: seq<Problem> := [Problem(1, 9.0), Problem(2, -8.0), Problem(3, 2.5)]

  /** The tolerance test of the check button. */
  function Judge(entry: Option<real>, answer: real): (r: Verdict)
    ensures r == Unparseable <==> entry.None?
    ensures r == Accepted <==> entry.Some? && answer - Tolerance < entry.value < answer + Tolerance
    ensures entry.Some? && entry.value == answer ==> r == Accepted
  {
    match entry
    case None => Unparseable
    case Some(x) => if Abs(x - answer) < Tolerance then Accepted else Rejected
  }

  /** The check handler: an unparseable entry changes nothing; an accepted
      one marks the card correct and opens the solution; any other number
      marks it wrong. */
  function CheckAnswer(c: Card, answer: real): (r: Card)
    ensures r.entry == c.entry
    ensures Judge(c.entry, answer) == Unparseable ==> r == c
    ensures Judge(c.entry, answer) == Accepted ==> r.status == Correct && r.showSolution
    ensures r.status == Correct <==> Judge(c.entry, answer) == Accepted || (c.entry.None? && c.status == Correct)
    ensures Judge(c.entry, answer) == Rejected ==> r.status == Wrong && r.showSolution == c.showSolution
    ensures c.showSolution ==> r.showSolution
  {
    match Judge(c.entry, answer)
    case Unparseable => c
    case Accepted => c.(status := Correct, showSolution := true)
    case Rejected => c.(status := Wrong)
  }

  /** Typing in the answer field stores the new entry and clears the status. */
  function Edit(c: Card, entry: Option<real>): (r: Card)
    ensures r.status == Idle && r.entry == entry
    ensures r.showSolution == c.showSolution
  {
    c.(entry := entry, status := Idle)
  }

  /** The check button, which is disabled while the card shows correct. */
  function Press(c: Card, answer: real): (r: Card)
    ensures c.status == Correct ==> r == c
    ensures c.status != Correct ==> r == CheckAnswer(c, answer)
  {
    if c.status == Correct then c else CheckAnswer(c, answer)
  }

  /** The show/hide-solution link. */
  function ToggleSolution(c: Card): (r: Card)
    ensures r.showSolution != c.showSolution
    ensures r.entry == c.entry && r.status == c.status
  {
    c.(showSolution := !c.showSolution)
  }

  datatype Action = Type(entry: Option<real>) | PressCheck | PressSolution

  function Act(c: Card, answer: real, act: Action): (r: Card) {
    match act
    case Type(entry) => Edit(c, entry)
    case PressCheck => Press(c, answer)
    case PressSolution => ToggleSolution(c)
  }

  function Play(c: Card, answer: real, acts: seq<Action>): (r: Card)
    decreases |acts|
  {
    if acts == [] then c else Play(Act(c, answer, acts[0]), answer, acts[1..])
  }

  /** The status a card shows always agrees with what its current entry
      would be judged: correct only for an accepted entry, wrong only for a
      rejected one. */
  predicate Consistent(c: Card, answer: real) {
    && (c.status == Correct ==> Judge(c.entry, answer) == Accepted)
    && (c.status == Wrong ==> Judge(c.entry, answer) == Rejected)
  }

  lemma ActConsistent(c: Card, answer: real, act: Action)
    requires Consistent(c, answer)
    ensures Consistent(Act(c, answer, act), answer)
  {
  }

  lemma {:induction false} PlayConsistent(c: Card, answer: real, acts: seq<Action>)
    requires Consistent(c, answer)
    ensures Consistent(Play(c, answer, acts), answer)
    decreases |acts|
  {
    if acts != [] {
      ActConsistent(c, answer, acts[0]);
      PlayConsistent(Act(c, answer, acts[0]), answer, acts[1..]);
    }
  }

  /** Whatever the user types and clicks, a card never shows correct for an
      answer outside the tolerance, nor wrong for one inside it. */
  lemma ReachableConsistent(answer: real, acts: seq<Action>)
    ensures var c := Play(NewCard, answer, acts);
            && (c.status == Correct ==> c.entry.Some? && Abs(c.entry.value - answer) < Tolerance)
            && (c.status == Wrong ==> c.entry.Some? && Abs(c.entry.value - answer) >= Tolerance)
  {
    PlayConsistent(NewCard, answer, acts);
  }

  /** On a consistent card that shows correct, checking again would keep
      the entry and the status; its only effect would be to reopen a solution
      the user has closed, which the disabled button prevents. */
  lemma DisabledButtonEffect(c: Card, answer: real)
    requires Consistent(c, answer)
    requires c.status == Correct
    ensures CheckAnswer(c, answer) == c.(showSolution := true)
    ensures Press(c, answer) == c
  {
  }

  /** Checking is idempotent. */
  lemma CheckIdempotent(c: Card, answer: real)
    ensures CheckAnswer(CheckAnswer(c, answer), answer) == CheckAnswer(c, answer)
  {
  }

  /** Sample decisions against the first problem's answer of 9. */
  lemma ToleranceSamples()
    ensures Judge(Some(9.05), 9.0) == Accepted
    ensures Judge(Some(9.2), 9.0) == Rejected
    ensures Judge(Some(8.8), 9.0) == Rejected
    ensures Judge(None, 9.0) == Unparseable
  {
  }

  /** Problem 1: from rest at 2 m/s² for 3 s the car covers ½·2·3² = 9 m. */
  lemma DistanceAnswer()
    ensures Problems[0].answer == 0.5 * 2.0 * 3.0 * 3.0
    ensures Problems[0].answer == Pos(0.0, 2.0, 3.0)
  {
  }

  /** Problem 2: stopping from 20 m/s within 25 m needs the unique a with
      0² = 20² + 2·a·25, which is the stored -8; the closed-form motion at
      that deceleration indeed stops after 25 m. */
  lemma BrakingAnswer(acc: real)
    ensures 0.0 == 20.0 * 20.0 + 2.0 * acc * 25.0 <==> acc == Problems[1].answer
    ensures Pos(20.0, Problems[1].answer, 2.5) == 25.0
    ensures Vel(20.0, Problems[1].answer, 2.5) == 0.0
  {
  }

  /** Problem 3: from 8 m/s to 18 m/s in 4 s is (18 − 8) / 4 = 2.5 m/s². */
  lemma AccelerationAnswer()
    ensures Problems[2].answer == (18.0 - 8.0) / 4.0
    ensures Vel(8.0, Problems[2].answer, 4.0) == 18.0
  {
  }
}

=== FILE: render.dfy ===
/** The view mapping of the simulation panel: pure clamps, minima, maxima and
    sign tests that turn the displayed displacement and velocity into the car
    offset, wheel animation, dashboard bar and velocity arrow. */
module Render {
  import opened Options
  import opened Kinematics
  import Engine

  /** Displacements are clamped to this magnitude before being drawn. */
  const ViewRange: real := 110.0

  /** Below this speed the wheels do not turn. */
  const MovingThreshold: real := 0.1

  /** Shortest wheel revolution period, in seconds. */
  const MinPeriod: real := 0.1

  /** At or below this speed no velocity arrow is drawn. */
  const ArrowThreshold: real := 0.5

  datatype Spin = Clockwise | CounterClockwise

  /** The dashboard velocity bar: a width in percent of the gauge, growing
      right of the centre line for non-negative velocity, left otherwise. */
  datatype Bar = Bar(width: real, growsRight: bool)

  /** The velocity arrow above the car: a length in pixels and a direction. */
  datatype Arrow = Arrow(length: real, pointsLeft: bool)

  /** Everything the stage and the dashboard derive from one state. */
  datatype Scene = Scene(
    carOffset: real,
    mirrored: bool,
    moving: bool,
    wheelPeriod: real,
    spin: Spin,
    bar: Bar,
    arrow: Option<Arrow>)

  /** The displacement as drawn: clamped to [-110, 110]. */
  function ViewPos(pos: real): (r: real)
    ensures -ViewRange <= r <= ViewRange
    ensures -ViewRange <= pos <= ViewRange ==> r == pos
    ensures pos > ViewRange ==> r == ViewRange
    ensures pos < -ViewRange ==> r == -ViewRange
  {
    var lo := if pos > -ViewRange then pos else -ViewRange;
    if lo < ViewRange then lo else ViewRange
  }

  /** Horizontal car position in percent of the road: the origin at 50 %,
      half a percent per metre. */
  function CarOffset(pos: real): (r: real)
    ensures -5.0 <= r <= 105.0
    ensures -ViewRange <= pos <= ViewRange ==> (r - 50.0) * 2.0 == pos
  {
    50.0 + ViewPos(pos) * 0.5
  }

  predicate IsMoving(vel: real) {
    Abs(vel) > MovingThreshold
  }

  /** Seconds per wheel revolution: 2 / speed, floored at 0.1 s, and 0 (no
      animation) when the car is not moving. */
  function WheelPeriod(vel: real): (r: real)
    ensures !IsMoving(vel) ==> r == 0.0
    ensures IsMoving(vel) ==> MinPeriod <= r < 20.0
    ensures IsMoving(vel) ==> r * Abs(vel) >= 2.0
    ensures IsMoving(vel) && Abs(vel) <= 20.0 ==> r * Abs(vel) == 2.0
    ensures Abs(vel) > 20.0 ==> r == MinPeriod
  {
    var speed := Abs(vel);
    if speed > MovingThreshold then
      var period := 2.0 / speed;
      if MinPeriod > period then MinPeriod else period
    else
      0.0
  }

  function SpinOf(vel: real): (r: Spin)
    ensures r == Clockwise <==> vel >= 0.0
  {
    if vel >= 0.0 then Clockwise else CounterClockwise
  }

  /** Width of the dashboard velocity bar: 1.5 % per m/s, at most half the
      gauge. */
  function BarWidth(vel: real): (r: real)
    ensures 0.0 <= r <= 50.0
    ensures Abs(vel) * 1.5 <= 50.0 ==> r == Abs(vel) * 1.5
    ensures Abs(vel) * 1.5 > 50.0 ==> r == 50.0
  {
    var w := Abs(vel) * 1.5;
    if w < 50.0 then w else 50.0
  }

  /** The velocity arrow, drawn only above 0.5 m/s: 5 px per m/s, at most
      100 px, pointing the way the car moves. */
  function ArrowOf(vel: real): (r: Option<Arrow>)
    ensures r.Some? <==> Abs(vel) > ArrowThreshold
    ensures r.Some? ==> 2.5 < r.value.length <= 100.0
    ensures r.Some? && Abs(vel) * 5.0 <= 100.0 ==> r.value.length == Abs(vel) * 5.0
    ensures r.Some? && Abs(vel) * 5.0 > 100.0 ==> r.value.length == 100.0
    ensures r.Some? ==> (r.value.pointsLeft <==> vel < 0.0)
  {
    if Abs(vel) > ArrowThreshold then
      var len := Abs(vel) * 5.0;
      Some(Arrow(if len < 100.0 then len else 100.0, vel < 0.0))
    else
      None
  }

  /** The whole view for one displayed displacement and velocity. */
  function Draw(pos: real, vel: real): (r: Scene)
    ensures -5.0 <= r.carOffset <= 105.0
    ensures r.moving <==> r.wheelPeriod >= MinPeriod
    ensures r.mirrored <==> r.spin == CounterClockwise
    ensures r.bar.growsRight <==> r.spin == Clockwise
    ensures 0.0 <= r.bar.width <= 50.0
    ensures r.arrow.Some? ==> r.moving && r.arrow.value.length <= 100.0
    ensures r.arrow.Some? ==> (r.arrow.value.pointsLeft <==> r.mirrored)
    ensures -ViewRange <= pos <= ViewRange ==> (r.carOffset - 50.0) * 2.0 == pos
    ensures pos > ViewRange ==> r.carOffset == 105.0
    ensures pos < -ViewRange ==> r.carOffset == -5.0
    ensures r.mirrored <==> vel < 0.0
    ensures r.moving <==> IsMoving(vel)
    ensures r.arrow.Some? <==> Abs(vel) > ArrowThreshold
    ensures r.bar.width == BarWidth(-vel)
    ensures r.moving && Abs(vel) <= 20.0 ==> r.wheelPeriod * Abs(vel) == 2.0
    ensures Abs(vel) > 20.0 ==> r.wheelPeriod == MinPeriod
    ensures r.arrow.Some? ==> r.arrow.value.length * r.wheelPeriod == 10.0
  {
    Scene(
      carOffset := CarOffset(pos),
      mirrored := vel < 0.0,
      moving := IsMoving(vel),
      wheelPeriod := WheelPeriod(vel),
      spin := SpinOf(vel),
      bar := Bar(BarWidth(vel), vel >= 0.0),
      arrow := ArrowOf(vel))
  }

  /** The view of a panel state. */
  function SceneOf(s: Engine.Sim): (r: Scene) {
    Draw(s.Position(), s.Velocity())
  }

  /** Further along the track is further right on screen. */
  lemma CarOffsetMonotone(p: real, q: real)
    requires p <= q
    ensures CarOffset(p) <= CarOffset(q)
  {
  }

  /** A faster car turns its wheels no slower. */
  lemma WheelPeriodMonotone(v: real, w: real)
    requires IsMoving(v) && Abs(v) <= Abs(w)
    ensures WheelPeriod(w) <= WheelPeriod(v)
  {
    QuotientAntitone(Abs(v), Abs(w));
  }

  /** 2 / x shrinks as x grows. */
  lemma QuotientAntitone(x: real, y: real)
    requires 0.0 < x <= y
    ensures 2.0 / y <= 2.0 / x
  {
    var p, q := 2.0 / x, 2.0 / y;
    assert p * x == 2.0 && q * y == 2.0;
  }

  /** The view depends on the velocity only through its size, apart from
      the direction indicators, which follow its sign. */
  lemma MirrorSymmetry(pos: real, vel: real)
    requires vel > 0.0
    ensures Draw(pos, -vel).carOffset == Draw(pos, vel).carOffset
    ensures Draw(pos, -vel).wheelPeriod == Draw(pos, vel).wheelPeriod
    ensures Draw(pos, -vel).bar.width == Draw(pos, vel).bar.width
    ensures Draw(pos, -vel).spin != Draw(pos, vel).spin
    ensures Draw(pos, -vel).arrow.Some? == Draw(pos, vel).arrow.Some?
  {
  }

  /** On every reachable state the clamp never engages: the car is drawn at
      exactly 50 % plus half its displacement, inside [-2.5 %, 102.5 %]. */
  lemma ReachableCarOnRoad(evs: seq<Engine.Event>)
    ensures var s := Engine.Run(Engine.Init, evs);
            && SceneOf(s).carOffset == 50.0 + s.Position() * 0.5
            && -2.5 <= SceneOf(s).carOffset <= 102.5
  {
    Engine.ReachableBounded(evs);
  }

  /** After a reset the car sits at the origin, 50 % across the road. */
  lemma ResetSceneCentred(s: Engine.Sim)
    ensures SceneOf(Engine.Reset(s)).carOffset == 50.0
    ensures SceneOf(Engine.Reset(s)).moving <==> Abs(s.v0) > MovingThreshold
  {
  }
}
